=== FILE: README.md ===
# financemonitor portfolio arithmetic in Dafny

financemonitor is a small portfolio tracker. It keeps a ledger of trade
records: ticker, quantity, price, an optional date and an optional type.
From that ledger it derives holdings and gains.

The repository has two front ends. Each keeps its own ledger, and they
compute with different rules:

- **The server-backed page** (`pages/index.js`, `buildSummary`) is the
  average-cost engine. It folds each ticker's records in ledger order over
  a running (quantity, total cost, realized) state. A `"buy"` record adds
  its lot to the cost pool. Every other record is a sell. A sell removes
  quantity at the current average cost and realizes the difference to its
  price. Each ticker then gets one row: quantity, average cost, quoted
  price, unrealized and realized P/L.
- **The standalone browser page** (`app.js`) is the additive engine.
  - It groups the records by ticker (`groupedByTicker`).
  - It sums each group's quantities and quantity × price amounts, whatever
    the record type.
  - It values each group at the quoted price (`renderPortfolio`) and
    totals invested amount, market value, P/L and return.
  - It appends untyped records (`addTransaction`).
  - It replaces the ledger only when an imported file parses to an array
    (`importData`).

The project is split into four modules:

- `Ledger` (ledger.dfy): the record type and the per-ticker filter. It also
  holds the sums over records, the key enumeration, and `addTransaction` /
  `importData`.
- `AverageCost` (average_cost.dfy): the fold, the rows and the summary of
  `buildSummary`.
- `Additive` (additive.dfy): grouping, group sums, row valuation and
  portfolio totals of `renderPortfolio`.
- `Engines` (engines.dfy): where the two engines agree (ledgers of buys) and
  where they part (untyped records).

Modelling choices:

- Arithmetic is over exact reals. The guarded divisions
  (`pages/index.js:63`, `pages/index.js:73`, `app.js:78`, `app.js:97`) keep
  the source's guard. The unguarded `invested / qty` at `app.js:74` becomes
  an `Option`, which is `None` where the quantity is 0 in exact arithmetic.
- `prices[t] || 0` is `PriceOf`: 0 for a ticker without a quote.
- The order of `Object.keys` is a parameter `keys` that must enumerate the
  ledger's tickers, each once (`IsKeyOrder`). `DiscoveryOrder` is one such
  enumeration. The totals are proved not to depend on which one is used.
- The price feed is an input map. Storage, parsing and the DOM are
  outside the model: `importData` receives the outcome of parsing as a
  `Parsed` value.

Three behaviours of the code are worth stating plainly, since a reader
might expect otherwise:

- **Untyped records.** `pages/index.js:59` tests `type === 'buy'`, so a
  record without a type takes the sell branch of the average-cost fold.
  `app.js:70-72` adds every record, whatever its type. The two pages keep
  separate ledgers: `app.js` keeps its ledger in the browser's local storage
  (`app.js:5`, `app.js:17`), while `pages/index.js` reads the server's file
  through `pages/api/transactions.js`. An untyped record from the browser
  form reaches the average-cost fold only when a ledger is moved from one
  page to the other, or when a request to the server omits the type.
  `Engines.UntypedRecordSplitsEngines` states what happens to such a record.
- **Zero quantity with leftover cost.** `pages/index.js:73-75` computes
  unrealized P/L as `quantity * (price - avg)`, with `avg = 0` at zero
  quantity. A position brought back to zero through a short can keep a
  non-zero cost pool, yet shows unrealized 0. The pool stays non-zero when
  the buy-back price differs from the average at which the short was opened.
  `AverageCost.ResidualCostAtZeroQuantity` works through a case that ends
  with a pool of −500. The pool then carries into the next buy:
  `AverageCost.ResidualCostCarriesIntoNextBuy` buys 10 at 50 once more and
  ends holding 10 at a cost of 0, so the row shows an average cost of 0.
- **Total invested.** `app.js:80` adds the invested amount of every group
  to the total, including groups whose quantity is zero or negative.

## Model

| member | source | states |
|---|---|---|
| Ledger.TickersExact | app.js:26-33 | a ticker has a group exactly when some record of the ledger names it |
| Ledger.ForTicker | app.js:28-31 | a ticker's records all name that ticker, are no more than the ledger's, and are non-empty exactly when the ticker occurs |
| Ledger.ForTickerConcat | app.js:28-31 | collecting a ticker's records distributes over concatenating ledgers, so grouping is stable |
| Ledger.ForTickerCounts | app.js:28-31 | a ticker's group holds every record of that ticker exactly as often as the ledger does, and no record of another ticker |
| Ledger.SingleTicker | app.js:26-33 | a non-empty ledger naming one ticker has that ticker only, and its group is the whole ledger |
| Ledger.GroupSizesSumToLength | app.js:26-33 | over any key enumeration, the group sizes add up to the number of records: every record lands in exactly one group |
| Ledger.DiscoveryOrder | app.js:58 | first-appearance order is a valid key enumeration: distinct, and exactly the ledger's tickers |
| Ledger.TotalPermutation | app.js:70-73 | a sum over records does not depend on their order |
| Ledger.TotalSameTrades | app.js:70-73 | the summed quantity and amount ignore the type field |
| Ledger.TotalByTicker | app.js:66-81 | summing per ticker over distinct keys that cover every record's ticker gives the sum over the whole ledger |
| Ledger.AddTransaction | app.js:20-21 | appending keeps the old records as a prefix, puts the new untyped record last, and adds its ticker to the ticker set |
| Ledger.ImportData | app.js:115-127 | only a file that parses to an array replaces the ledger; a parse failure or a non-array leaves it unchanged |
| Ledger.ImportIdempotent | app.js:118-124 | importing the same file twice has the effect of importing it once |
| AverageCost.AvgCost | pages/index.js:63 | the average prices the held quantity at the total cost, and is 0 instead of a division by zero when nothing is held |
| AverageCost.BuyStep | pages/index.js:59-61 | a buy adds its quantity and amount and realizes nothing; from a nonzero holding that stays nonzero, it moves the average to the quantity-weighted mean of old average and buy price |
| AverageCost.SellStep | pages/index.js:62-67 | a non-buy removes quantity at the current average and realizes price less average per unit; from a flat position it opens a short at zero average |
| AverageCost.SellKeepsAverage | pages/index.js:63-65 | a sell from a nonzero holding that leaves something held does not change the average cost |
| AverageCost.FullCloseZeroesBasis | pages/index.js:63-66 | selling exactly the nonzero held quantity empties quantity and cost pool and realizes proceeds less the pool |
| AverageCost.BuysOnlyFold | pages/index.js:55-68 | with buys only, the state is (summed quantity, summed amount, 0 realized) and, at nonzero summed quantity, the average is the quantity-weighted mean of purchase prices |
| AverageCost.LongOnlyBasis | pages/index.js:55-68 | trades of positive quantity at non-negative prices that never sell more than is held keep the position long, the cost pool non-negative and empty whenever nothing is held, and the average non-negative |
| AverageCost.PositionsPerTicker | pages/index.js:54-68 | the single pass keeps one state for exactly the ledger's tickers, each the fold of that ticker's own records in ledger order |
| AverageCost.MakeRow | pages/index.js:72-83 | the row's unrealized P/L is quantity times price less remaining cost at nonzero quantity, −cost without a quote, and 0 with a 0 average at zero quantity |
| AverageCost.Summary | pages/index.js:49-86 | an empty ledger gives no rows; otherwise one row per distinct ticker, built from that ticker's records alone |
| AverageCost.RowDependsOnlyOnTicker | pages/index.js:54-58 | two ledgers with the same records for a ticker give that ticker the same row |
| AverageCost.ResidualCostAtZeroQuantity | pages/index.js:73-75 | buy 10 at 100, sell 20 at 100, buy 10 at 50 ends at quantity 0 with cost pool −500, and the row shows unrealized 0 |
| AverageCost.ResidualCostCarriesIntoNextBuy | pages/index.js:59-75 | buy 10 at 100, sell 20 at 100, then buy 10 at 50 twice ends holding 10 at cost 0, and the row shows average 0 and, at a quote of 50, unrealized 500 |
| AverageCost.TwoBuysThenSell | pages/index.js:59-66 | buy 10 at 100, buy 10 at 200, sell 5 at 180 leaves 15 held at cost 2250 with 150 realized |
| AverageCost.TwoBuysThenSellSummary | pages/index.js:69-84 | the same ledger quoted at 160 gives one row: quantity 15, average 150, unrealized 150, realized 150 |
| Additive.GroupsArePartition | app.js:26-33 | there is a group for exactly the ledger's tickers, each holding that ticker's records in ledger order |
| Additive.SumGroup | app.js:68-73 | the loop accumulates the group's summed quantity and summed quantity × price |
| Additive.LineValuation | app.js:74-78 | the average exists exactly at nonzero quantity and prices the invested amount; value is price × quantity; P/L is value less invested; change is P/L per invested × 100, or 0 when nothing is invested |
| Additive.GroupLine | app.js:67-78 | a row carries its group's summed quantity and invested amount and the ticker's quoted price, 0 without a quote |
| Additive.GroupLineOrderFree | app.js:70-73 | a group's row does not depend on the order of its records |
| Additive.GroupLineIgnoresType | app.js:70-73 | a group's row does not depend on the records' type field |
| Additive.PositiveQuantitiesDefineAverage | app.js:68-74 | when every quantity is positive, every group's quantity is positive and its average is defined |
| Additive.ValueOfGroup | app.js:75-76 | a group's market value is the sum of its records' values at the quoted price |
| Additive.MakeTotals | app.js:96-97 | total P/L is current value less invested; return is P/L per invested × 100, or 0 when nothing is invested |
| Additive.GroupLinesAt | app.js:66-94 | the rows follow the key enumeration one to one, each the row of that key's group |
| Additive.PortfolioSums | app.js:63-81 | summed per ticker over a key enumeration, invested amount and value equal their sums over the whole ledger; an empty ledger has no keys |
| Additive.RowSums | app.js:80-81 | the rows' invested amounts and values add up to the per-ticker sums of record amounts and values |
| Additive.RowStep | app.js:66-81 | one loop iteration appends the key's row and adds its invested amount and value to the running totals |
| Additive.RenderRows | app.js:63-94 | the loop produces the rows of the key enumeration and the running totals of their invested amounts and values |
| Additive.RenderGroup | app.js:67-78 | the loop body yields the row of the key's group |
| Additive.RenderPortfolio | app.js:56-103 | one row per key; the totals are computed from the whole ledger's invested amount and market value, whatever the key order; an empty ledger gives no rows and zero totals |
| Additive.AddTransactionGrowsOwnGroup | app.js:20-33 | after an append, the new record's ticker's group is its old group followed by the new record |
| Additive.AddTransactionKeepsOtherGroups | app.js:20-33 | after an append, every other ticker's group is unchanged |
| Additive.AddTransactionAddsAmounts | app.js:20-21 | an append adds the record's quantity and quantity × price to the ledger-wide sums |
| Engines.BuysOnlyEnginesAgree | pages/index.js:59-61 | on a ledger of buys, both engines report the same quantity for a ticker, and at nonzero quantity the same average; nothing is realized |
| Engines.UntypedRecordSplitsEngines | app.js:20-21 | an appended untyped record lowers its ticker's quantity in the average-cost fold and raises it in the additive sums by the same amount |

## Left out

- Price lookup (`fetchPrices`, a network call to a quote service) is not modelled. Prices are an input map.
- Overlapping asynchronous runs are not modelled. `Summary` and `RenderPortfolio` are pure functions of one ledger. In the source, `pages/index.js:24-26` re-runs `buildSummary` on every ledger change through a React effect, with no cancellation. `render()` (called at `app.js:23`, `app.js:123` and `app.js:163`) starts `renderPortfolio()` at `app.js:134` without awaiting it. Two runs in flight can finish out of order across `await fetchPrices` (`pages/index.js:70`, `app.js:59`). The run that finishes last writes the table, so rows and totals of an older ledger can stay on screen.
- `Summary` and `RenderPortfolio` always produce rows, because prices arrive as a map. In the source, `await fetchPrices(...)` at `pages/index.js:70` and `app.js:59` has no `try`/`catch`. A failed quote request therefore rejects `buildSummary` or `renderPortfolio`: no rows and no totals are produced, and the previous table stays on screen. The price 0 of `PriceOf` covers only a ticker missing from a response that succeeded.
- DOM rendering, `localStorage`, `FileReader`, `JSON.parse` / `JSON.stringify`, `loadTransactions` and `exportData` are not modelled. These are I/O; the outcome of parsing is the `Parsed` input of `ImportData`.
- The server route `pages/api/transactions.js` is not modelled. It handles storage, ids and default dates, and `Number()` conversion of the form fields.
- `Ledger.AddTransaction` takes the quantity and price as reals. The conversion of the form's strings by `Number(quantity)` and `Number(price)` at `app.js:21` is not modelled, nor is the `NaN` it yields for text that is not a number.
- Number formatting (`toFixed`) and IEEE-754 behaviour (rounding, `NaN`, infinities) are not modelled. Arithmetic is exact. The `None` average marks a quantity of 0 in exact arithmetic; float overflow, or a float sum that cancels to 0, is not modelled.
- The concrete order of `Object.keys` is not modelled; it is the `keys` parameter. The summary of `buildSummary` is a map from ticker to row, not a sequence.
- Tickers that collide with JavaScript object prototype members (such as `constructor`) are not modelled. The model treats every ticker as an ordinary key.
- The record `id`, and any ticker trimming or upper-casing, are not modelled. `addTransaction` stores the ticker as given.
- `ImportData` accepts an array of well-formed records, because the model's records are typed. The source accepts any array and does not check its elements.
- The `||` in `prices[t] || 0` also maps a quote of `NaN` to 0. Only the missing-key case is modelled, since reals have no `NaN`.

=== FILE: additive.dfy ===
/**
  The additive engine behind the browser page: records are grouped by ticker,
  each group's quantities and quantity-times-price amounts are summed whatever
  their type, and the groups are valued at the quoted prices and totalled.
 */
module Additive {
  import opened Ledger

  /** `groupedByTicker`: one pass pushing each record onto its ticker's list. */
  function Groups(ledger: seq<Tx>): map<string, seq<Tx>>
    decreases |ledger|
  {
    if |ledger| == 0 then map[]
    else
      var g0 := Groups(ledger[..|ledger| - 1]);
      var tx := ledger[|ledger| - 1];
      var group := if tx.ticker in g0 then g0[tx.ticker] else [];
      g0[tx.ticker := group + [tx]]
  }

  /** Grouping is a stable partition: there is a group for exactly the
      tickers of the ledger, and each group is the ledger's records of that
      ticker in ledger order. */
  lemma {:induction false} GroupsArePartition(ledger: seq<Tx>)
    ensures Groups(ledger).Keys == Tickers(ledger)
    ensures forall t :: t in Groups(ledger) ==> Groups(ledger)[t] == ForTicker(ledger, t)
    decreases |ledger|
  {
    if |ledger| > 0 {
      var init := ledger[..|ledger| - 1];
      var tx := ledger[|ledger| - 1];
      assert ledger == init + [tx];
      GroupsArePartition(init);
      var g := Groups(ledger);
      assert Tickers(ledger) == Tickers(init) + {tx.ticker};
      forall t | t in g
        ensures g[t] == ForTicker(ledger, t)
      {
        ForTickerPush(init, tx, t);
        if t != tx.ticker {
          assert ForTicker(init, t) + [] == ForTicker(init, t);
        }
      }
    }
  }

  /** The inner loop of `renderPortfolio`: quantity and invested amount of
      one group, accumulated record by record. */
  method SumGroup(txs: seq<Tx>) returns (qty: real, invested: real)
    ensures qty == Total(txs, Qty)
    ensures invested == Total(txs, Cost)
  {
    qty := 0.0;
    invested := 0.0;
    var i := 0;
    while i < |txs|
      invariant 0 <= i <= |txs|
      invariant qty == Total(txs[..i], Qty)
      invariant invested == Total(txs[..i], Cost)
    {
      assert txs[..i + 1] == txs[..i] + [txs[i]];
      TotalPush(txs[..i], txs[i], Qty);
      TotalPush(txs[..i], txs[i], Cost);
      qty := qty + txs[i].quantity;
      invested := invested + txs[i].quantity * txs[i].price;
      i := i + 1;
    }
    assert txs[..i] == txs;
  }

  /** One row of the portfolio table. `avg` is `None` where the source's
      unguarded `invested / qty` has no numeric value (a zero quantity). */
  datatype Line = Line(ticker: string, qty: real, invested: real, avg: Option<real>,
                       price: real, value: real, pl: real, change: real)

  /** Valuation of one group from its sums and its quoted price. */
  function MakeLine(t: string, qty: real, invested: real, price: real): Line
  {
    var avg := if qty != 0.0 then Some(invested / qty) else None;
    var value := price * qty;
    var pl := value - invested;
    var change := if invested != 0.0 then (pl / invested) * 100.0 else 0.0;
    Line(t, qty, invested, avg, price, value, pl, change)
  }

  /** What a row states: the average is defined exactly when the quantity is
      nonzero and then prices the invested amount; P/L is market value less
      invested; the percentage change is P/L relative to invested, and 0
      instead of a division by zero when nothing is invested. */
  lemma LineValuation(t: string, qty: real, invested: real, price: real)
    ensures var l := MakeLine(t, qty, invested, price);
            && l.ticker == t && l.qty == qty && l.invested == invested && l.price == price
            && (l.avg.Some? <==> qty != 0.0)
            && (l.avg.Some? ==> l.avg.value * qty == invested)
            && l.value == price * qty
            && l.value - l.pl == invested
            && (invested == 0.0 ==> l.change == 0.0)
            && (invested != 0.0 ==> l.change * invested == l.pl * 100.0)
            && (price == 0.0 ==> l.value == 0.0 && l.pl == -invested)
  {
  }

  /** The row of ticker `t` computed from its group `txs`. */
  function GroupLine(t: string, txs: seq<Tx>, prices: map<string, real>): (l: Line)
    ensures l.qty == Total(txs, Qty) && l.invested == Total(txs, Cost)
    ensures l.price == PriceOf(prices, t)
    ensures l.ticker == t
  {
    MakeLine(t, Total(txs, Qty), Total(txs, Cost), PriceOf(prices, t))
  }

  /** A group's row does not depend on the order of the records inside it. */
  lemma GroupLineOrderFree(a: seq<Tx>, b: seq<Tx>, t: string, prices: map<string, real>)
    requires multiset(a) == multiset(b)
    ensures GroupLine(t, a, prices) == GroupLine(t, b, prices)
  {
    TotalPermutation(a, b, Qty);
    TotalPermutation(a, b, Cost);
  }

  /** A group's row ignores the type field: sells are summed like buys. */
  lemma GroupLineIgnoresType(a: seq<Tx>, b: seq<Tx>, t: string, prices: map<string, real>)
    requires SameTrades(a, b)
    ensures GroupLine(t, a, prices) == GroupLine(t, b, prices)
  {
    TotalSameTrades(a, b);
  }

  /** With every quantity positive, every group has a positive quantity, so
      the unguarded average is always defined. */
  lemma PositiveQuantitiesDefineAverage(ledger: seq<Tx>, t: string, prices: map<string, real>)
    requires forall i :: 0 <= i < |ledger| ==> ledger[i].quantity > 0.0
    requires t in Groups(ledger)
    ensures GroupLine(t, Groups(ledger)[t], prices).qty > 0.0
    ensures GroupLine(t, Groups(ledger)[t], prices).avg.Some?
  {
    GroupsArePartition(ledger);
    ForTickerPositive(ledger, t);
    TotalPositive(ForTicker(ledger, t));
  }

  lemma {:induction false} ForTickerPositive(ledger: seq<Tx>, t: string)
    requires forall i :: 0 <= i < |ledger| ==> ledger[i].quantity > 0.0
    ensures forall i :: 0 <= i < |ForTicker(ledger, t)| ==> ForTicker(ledger, t)[i].quantity > 0.0
    decreases |ledger|
  {
    if |ledger| > 0 {
      ForTickerPositive(ledger[..|ledger| - 1], t);
    }
  }

  /** Market value of one record at its ticker's quoted price. */
  function ValueAt(prices: map<string, real>): Tx -> real
  {
    (tx: Tx) => PriceOf(prices, tx.ticker) * tx.quantity
  }

  /** For a group of one ticker, the sum of record values is the quoted price
      times the group's quantity. */
  lemma {:induction false} ValueOfGroup(txs: seq<Tx>, t: string, prices: map<string, real>)
    requires forall i :: 0 <= i < |txs| ==> txs[i].ticker == t
    ensures Total(txs, ValueAt(prices)) == PriceOf(prices, t) * Total(txs, Qty)
    decreases |txs|
  {
    if |txs| > 0 {
      var init := txs[..|txs| - 1];
      var x := txs[|txs| - 1];
      ValueOfGroup(init, t, prices);
      var p := PriceOf(prices, t);
      assert p * (Total(init, Qty) + x.quantity) == p * Total(init, Qty) + p * x.quantity;
    }
  }

  datatype Totals = Totals(totalInvested: real, currentValue: real, totalPL: real, totalReturn: real)

  /** Portfolio totals from the summed invested amount and market value; the
      return percentage is 0 rather than a division by zero when nothing is
      invested. */
  function MakeTotals(totalInvested: real, currentValue: real): (r: Totals)
    ensures r.totalInvested == totalInvested && r.currentValue == currentValue
    ensures r.totalPL == currentValue - totalInvested
    ensures totalInvested == 0.0 ==> r.totalReturn == 0.0
    ensures totalInvested != 0.0 ==> r.totalReturn * totalInvested == r.totalPL * 100.0
  {
    var totalPL := currentValue - totalInvested;
    var totalReturn := if totalInvested != 0.0 then (totalPL / totalInvested) * 100.0 else 0.0;
    Totals(totalInvested, currentValue, totalPL, totalReturn)
  }

  function GroupLines(ledger: seq<Tx>, keys: seq<string>, prices: map<string, real>): seq<Line>
    decreases |keys|
  {
    if |keys| == 0 then []
    else GroupLines(ledger, keys[..|keys| - 1], prices) + [GroupLine(keys[|keys| - 1], ForTicker(ledger, keys[|keys| - 1]), prices)]
  }

  lemma {:induction false} GroupLinesAt(ledger: seq<Tx>, keys: seq<string>, prices: map<string, real>)
    ensures |GroupLines(ledger, keys, prices)| == |keys|
    ensures forall j :: 0 <= j < |keys| ==>
      GroupLines(ledger, keys, prices)[j] == GroupLine(keys[j], ForTicker(ledger, keys[j]), prices)
    decreases |keys|
  {
    if |keys| > 0 {
      GroupLinesAt(ledger, keys[..|keys| - 1], prices);
    }
  }

  lemma PortfolioSums(ledger: seq<Tx>, keys: seq<string>, prices: map<string, real>)
    requires IsKeyOrder(keys, ledger)
    ensures SumByTicker(ledger, keys, Cost) == Total(ledger, Cost)
    ensures SumByTicker(ledger, keys, ValueAt(prices)) == Total(ledger, ValueAt(prices))
    ensures |ledger| == 0 ==> keys == []
  {
    AllTickersIn(ledger);
    TotalByTicker(ledger, keys, Cost);
    TotalByTicker(ledger, keys, ValueAt(prices));
  }

  /** The body of the per-ticker loop of `renderPortfolio`. */
  method RenderGroup(t: string, txs: seq<Tx>, prices: map<string, real>) returns (line: Line)
    ensures line == GroupLine(t, txs, prices)
  {
    var qty, invested := SumGroup(txs);
    line := MakeLine(t, qty, invested, PriceOf(prices, t));
  }

  function InvestedOf(lines: seq<Line>): real
    decreases |lines|
  {
    if |lines| == 0 then 0.0 else InvestedOf(lines[..|lines| - 1]) + lines[|lines| - 1].invested
  }

  function ValueOf(lines: seq<Line>): real
    decreases |lines|
  {
    if |lines| == 0 then 0.0 else ValueOf(lines[..|lines| - 1]) + lines[|lines| - 1].value
  }

  /** Summed over the rows of a key enumeration, the rows' invested amounts
      and market values are the per-ticker sums of record amounts and values. */
  lemma {:induction false} RowSums(ledger: seq<Tx>, keys: seq<string>, prices: map<string, real>)
    ensures InvestedOf(GroupLines(ledger, keys, prices)) == SumByTicker(ledger, keys, Cost)
    ensures ValueOf(GroupLines(ledger, keys, prices)) == SumByTicker(ledger, keys, ValueAt(prices))
    decreases |keys|
  {
    if |keys| > 0 {
      var ks := keys[..|keys| - 1];
      var k := keys[|keys| - 1];
      RowSums(ledger, ks, prices);
      var lines := GroupLines(ledger, keys, prices);
      assert lines[..|lines| - 1] == GroupLines(ledger, ks, prices);
      GroupLineSums(ledger, k, prices);
    }
  }

  /** A ticker's row carries the invested amount and the market value of its
      group. */
  lemma GroupLineSums(ledger: seq<Tx>, t: string, prices: map<string, real>)
    ensures GroupLine(t, ForTicker(ledger, t), prices).invested == Total(ForTicker(ledger, t), Cost)
    ensures GroupLine(t, ForTicker(ledger, t), prices).value == Total(ForTicker(ledger, t), ValueAt(prices))
  {
    var g := ForTicker(ledger, t);
    assert GroupLine(t, g, prices).value == PriceOf(prices, t) * Total(g, Qty);
    ValueOfGroup(g, t, prices);
  }

  /** Every key of the enumeration has a group, and it is the ticker's
      records. */
  lemma GroupOfKey(ledger: seq<Tx>, keys: seq<string>, i: nat)
    requires IsKeyOrder(keys, ledger)
    requires i < |keys|
    ensures keys[i] in Groups(ledger)
    ensures Groups(ledger)[keys[i]] == ForTicker(ledger, keys[i])
  {
    GroupsArePartition(ledger);
  }

  /** One iteration of the per-ticker loop extends the rows and their sums. */
  lemma RowStep(ledger: seq<Tx>, keys: seq<string>, i: nat, prices: map<string, real>, lines: seq<Line>, line: Line)
    requires i < |keys|
    requires lines == GroupLines(ledger, keys[..i], prices)
    requires line == GroupLine(keys[i], ForTicker(ledger, keys[i]), prices)
    ensures lines + [line] == GroupLines(ledger, keys[..i + 1], prices)
    ensures InvestedOf(lines + [line]) == InvestedOf(lines) + line.invested
    ensures ValueOf(lines + [line]) == ValueOf(lines) + line.value
  {
    assert keys[..i + 1][..i] == keys[..i];
    assert (lines + [line])[..|lines|] == lines;
  }

  /** The per-ticker loop of `renderPortfolio`: one row per key, with the
      running sums of invested amount and market value. */
  method RenderRows(ledger: seq<Tx>, prices: map<string, real>, keys: seq<string>)
    returns (lines: seq<Line>, totalInvested: real, currentValue: real)
    requires IsKeyOrder(keys, ledger)
    ensures lines == GroupLines(ledger, keys, prices)
    ensures totalInvested == InvestedOf(lines)
    ensures currentValue == ValueOf(lines)
  {
    var groups := Groups(ledger);
    lines := [];
    totalInvested := 0.0;
    currentValue := 0.0;
    var i := 0;
    while i < |keys|
      invariant 0 <= i <= |keys|
      invariant lines == GroupLines(ledger, keys[..i], prices)
      invariant totalInvested == InvestedOf(lines)
      invariant currentValue == ValueOf(lines)
    {
      var t := keys[i];
      GroupOfKey(ledger, keys, i);
      var line := RenderGroup(t, groups[t], prices);
      RowStep(ledger, keys, i, prices, lines, line);
      lines := lines + [line];
      totalInvested := totalInvested + line.invested;
      currentValue := currentValue + line.value;
      i := i + 1;
    }
    assert keys[..i] == keys;
  }

  /** The arithmetic of `renderPortfolio`: one row per ticker in the key
      enumeration `keys`, then the portfolio totals, which equal sums over the
      whole ledger and so do not depend on the enumeration order. */
  method RenderPortfolio(ledger: seq<Tx>, prices: map<string, real>, keys: seq<string>)
    returns (lines: seq<Line>, totals: Totals)
    requires IsKeyOrder(keys, ledger)
    ensures |lines| == |keys|
    ensures forall j :: 0 <= j < |lines| ==> lines[j] == GroupLine(keys[j], ForTicker(ledger, keys[j]), prices)
    ensures totals == MakeTotals(Total(ledger, Cost), Total(ledger, ValueAt(prices)))
    ensures |ledger| == 0 ==> lines == [] && totals == Totals(0.0, 0.0, 0.0, 0.0)
  {
    var totalInvested, currentValue;
    lines, totalInvested, currentValue := RenderRows(ledger, prices, keys);
    RowSums(ledger, keys, prices);
    GroupLinesAt(ledger, keys, prices);
    PortfolioSums(ledger, keys, prices);
    totals := MakeTotals(totalInvested, currentValue);
  }

  /** `addTransaction` grows the group of the new record's ticker by that
      record, at its end. */
  lemma AddTransactionGrowsOwnGroup(ledger: seq<Tx>, ticker: string, quantity: real, price: real, date: string)
    ensures var r := AddTransaction(ledger, ticker, quantity, price, date);
            ticker in Groups(r) &&
            Groups(r)[ticker] == ForTicker(ledger, ticker) + [Tx(ticker, quantity, price, Some(date), None)]
  {
    var tx := Tx(ticker, quantity, price, Some(date), None);
    var r := AddTransaction(ledger, ticker, quantity, price, date);
    assert r == ledger + [tx];
    GroupsArePartition(r);
    ForTickerPush(ledger, tx, ticker);
  }

  /** `addTransaction` leaves every other ticker's group as it was. */
  lemma AddTransactionKeepsOtherGroups(ledger: seq<Tx>, ticker: string, quantity: real, price: real, date: string, t: string)
    requires t in Groups(ledger) && t != ticker
    ensures var r := AddTransaction(ledger, ticker, quantity, price, date);
            t in Groups(r) && Groups(r)[t] == Groups(ledger)[t]
  {
    var tx := Tx(ticker, quantity, price, Some(date), None);
    var r := AddTransaction(ledger, ticker, quantity, price, date);
    assert r == ledger + [tx];
    GroupsArePartition(ledger);
    GroupsArePartition(r);
    ForTickerPush(ledger, tx, t);
    assert ForTicker(ledger, t) + [] == ForTicker(ledger, t);
  }

  /** `addTransaction` adds the new record's quantity and amount to the
      ledger-wide sums, and so to the portfolio's total invested. */
  lemma AddTransactionAddsAmounts(ledger: seq<Tx>, ticker: string, quantity: real, price: real, date: string)
    ensures var r := AddTransaction(ledger, ticker, quantity, price, date);
            Total(r, Cost) == Total(ledger, Cost) + quantity * price &&
            Total(r, Qty) == Total(ledger, Qty) + quantity
  {
    var tx := Tx(ticker, quantity, price, Some(date), None);
    assert AddTransaction(ledger, ticker, quantity, price, date) == ledger + [tx];
    TotalPush(ledger, tx, Cost);
    TotalPush(ledger, tx, Qty);
  }
}

=== FILE: average_cost.dfy ===
/**
  The weighted-average-cost engine behind the server-backed page: each
  ticker's records are folded in ledger order over (quantity, totalCost,
  realized), and each ticker then gets one summary row valued at the quoted
  price.
 */
module AverageCost {
  import opened Ledger

  /** Per-ticker running state of the fold. */
  datatype Position = Position(quantity: real, totalCost: real, realized: real)

  const Flat := Position(0.0, 0.0, 0.0)

  /** Only a record whose type is exactly "buy" is a buy; every other record,
      including one with no type at all, takes the sell branch. */
  predicate IsBuy(tx: Tx)
  {
    tx.kind == Some("buy")
  }

  /** Average cost of the held quantity; 0 by convention when nothing is held,
      so it never divides by zero. */
  function AvgCost(p: Position): (avg: real)
    ensures p.quantity != 0.0 ==> avg * p.quantity == p.totalCost
    ensures p.quantity == 0.0 ==> avg == 0.0
  {
    if p.quantity != 0.0 then p.totalCost / p.quantity else 0.0
  }

  /** One record applied to a ticker's running state. */
  function Step(p: Position, tx: Tx): Position
  {
    if IsBuy(tx) then
      Position(p.quantity + tx.quantity, p.totalCost + tx.quantity * tx.price, p.realized)
    else
      var avg := AvgCost(p);
      Position(p.quantity - tx.quantity, p.totalCost - avg * tx.quantity, p.realized + (tx.price - avg) * tx.quantity)
  }

  /** A ticker's records folded in ledger order from the flat state. */
  function Fold(txs: seq<Tx>): Position
    decreases |txs|
  {
    if |txs| == 0 then Flat else Step(Fold(txs[..|txs| - 1]), txs[|txs| - 1])
  }

  /** A buy adds its lot to the quantity and cost pool and realizes nothing;
      from a nonzero holding that stays nonzero, the new average is the
      quantity-weighted mean of the old average and the buy price. */
  lemma BuyStep(p: Position, tx: Tx)
    requires IsBuy(tx)
    ensures Step(p, tx).quantity == p.quantity + tx.quantity
    ensures Step(p, tx).totalCost == p.totalCost + Cost(tx)
    ensures Step(p, tx).realized == p.realized
    ensures p.quantity != 0.0 && Step(p, tx).quantity != 0.0 ==>
      AvgCost(Step(p, tx)) == (AvgCost(p) * p.quantity + tx.quantity * tx.price) / Step(p, tx).quantity
  {
  }

  /** A sell (any record that is not a buy) removes quantity at the current
      average cost and realizes the difference to its price; when nothing is
      held the average is 0, so the fold runs on into a short position. */
  lemma SellStep(p: Position, tx: Tx)
    requires !IsBuy(tx)
    ensures Step(p, tx).quantity == p.quantity - tx.quantity
    ensures Step(p, tx).totalCost == p.totalCost - AvgCost(p) * tx.quantity
    ensures Step(p, tx).realized == p.realized + (tx.price - AvgCost(p)) * tx.quantity
    ensures p.quantity == 0.0 ==>
      Step(p, tx) == Position(-tx.quantity, p.totalCost, p.realized + tx.price * tx.quantity)
  {
  }

  /** The averaging invariant: a sell from a nonzero holding that leaves
      something held does not move the average cost. */
  lemma SellKeepsAverage(p: Position, tx: Tx)
    requires !IsBuy(tx)
    requires p.quantity != 0.0
    requires p.quantity - tx.quantity != 0.0
    ensures AvgCost(Step(p, tx)) == AvgCost(p)
  {
    var avg := AvgCost(p);
    var r := Step(p, tx);
    assert r.totalCost == avg * p.quantity - avg * tx.quantity;
    assert r.totalCost == avg * r.quantity;
  }

  /** Selling exactly the nonzero held quantity closes the position: nothing
      is held and the cost pool is empty. */
  lemma FullCloseZeroesBasis(p: Position, tx: Tx)
    requires !IsBuy(tx)
    requires p.quantity != 0.0
    requires tx.quantity == p.quantity
    ensures Step(p, tx).quantity == 0.0
    ensures Step(p, tx).totalCost == 0.0
    ensures Step(p, tx).realized == p.realized + tx.price * tx.quantity - p.totalCost
  {
    var avg := AvgCost(p);
    assert avg * tx.quantity == p.totalCost;
  }

  predicate AllBuys(txs: seq<Tx>)
  {
    forall i :: 0 <= i < |txs| ==> IsBuy(txs[i])
  }

  /** With buys only, nothing is realized and, at nonzero summed quantity,
      the reported average is the quantity-weighted mean of the purchase
      prices. */
  lemma {:induction false} BuysOnlyFold(txs: seq<Tx>)
    requires AllBuys(txs)
    ensures Fold(txs) == Position(Total(txs, Qty), Total(txs, Cost), 0.0)
    ensures Total(txs, Qty) != 0.0 ==> AvgCost(Fold(txs)) == Total(txs, Cost) / Total(txs, Qty)
    decreases |txs|
  {
    if |txs| > 0 {
      BuysOnlyFold(txs[..|txs| - 1]);
    }
  }

  /** Trades that never sell more than is held at that moment. */
  predicate NeverShort(txs: seq<Tx>)
    decreases |txs|
  {
    |txs| == 0 ||
    (NeverShort(txs[..|txs| - 1]) &&
     (IsBuy(txs[|txs| - 1]) || txs[|txs| - 1].quantity <= Fold(txs[..|txs| - 1]).quantity))
  }

  predicate ValidTrades(txs: seq<Tx>)
  {
    forall i :: 0 <= i < |txs| ==> txs[i].quantity > 0.0 && txs[i].price >= 0.0
  }

  /** The state of a long-only book: nothing short, a non-negative cost
      pool, and an empty pool whenever nothing is held. */
  predicate LongOnly(p: Position)
  {
    p.quantity >= 0.0 && p.totalCost >= 0.0 && (p.quantity == 0.0 ==> p.totalCost == 0.0)
  }

  lemma LongOnlyStep(p: Position, tx: Tx)
    requires LongOnly(p)
    requires tx.quantity > 0.0 && tx.price >= 0.0
    requires IsBuy(tx) || tx.quantity <= p.quantity
    ensures LongOnly(Step(p, tx))
  {
    if !IsBuy(tx) {
      var avg := AvgCost(p);
      assert avg >= 0.0;
      assert Step(p, tx).totalCost == avg * (p.quantity - tx.quantity);
    } else {
      assert tx.quantity * tx.price >= 0.0;
    }
  }

  lemma LongOnlyAverage(p: Position)
    requires LongOnly(p)
    ensures AvgCost(p) >= 0.0
  {
    if p.quantity != 0.0 {
      assert AvgCost(p) == p.totalCost / p.quantity;
    }
  }

  /** With positive quantities at non-negative prices and without
      over-selling, the position stays long, the cost pool stays
      non-negative and is empty whenever nothing is held, so the average
      cost is never negative. */
  lemma {:induction false} LongOnlyBasis(txs: seq<Tx>)
    requires ValidTrades(txs)
    requires NeverShort(txs)
    ensures LongOnly(Fold(txs))
    ensures AvgCost(Fold(txs)) >= 0.0
    decreases |txs|
  {
    if |txs| > 0 {
      var init := txs[..|txs| - 1];
      assert ValidTrades(init);
      LongOnlyBasis(init);
      LongOnlyStep(Fold(init), txs[|txs| - 1]);
    }
    LongOnlyAverage(Fold(txs));
  }

  // ---------------------------------------------------------------------
  // Grouping and summary rows

  /** The single pass over the ledger that keeps one running state per ticker. */
  function Positions(ledger: seq<Tx>): map<string, Position>
    decreases |ledger|
  {
    if |ledger| == 0 then map[]
    else
      var m0 := Positions(ledger[..|ledger| - 1]);
      var tx := ledger[|ledger| - 1];
      var item := if tx.ticker in m0 then m0[tx.ticker] else Flat;
      m0[tx.ticker := Step(item, tx)]
  }

  lemma FoldPush(txs: seq<Tx>, tx: Tx)
    ensures Fold(txs + [tx]) == Step(Fold(txs), tx)
  {
    assert (txs + [tx])[..|txs|] == txs;
  }

  /** The single pass keeps, for every ticker, exactly the fold of that
      ticker's own records in ledger order. */
  lemma {:induction false} PositionsPerTicker(ledger: seq<Tx>)
    ensures Positions(ledger).Keys == Tickers(ledger)
    ensures forall t :: t in Positions(ledger) ==> Positions(ledger)[t] == Fold(ForTicker(ledger, t))
    decreases |ledger|
  {
    if |ledger| > 0 {
      var init := ledger[..|ledger| - 1];
      var tx := ledger[|ledger| - 1];
      assert ledger == init + [tx];
      PositionsPerTicker(init);
      var m0 := Positions(init);
      var m := Positions(ledger);
      assert Tickers(ledger) == Tickers(init) + {tx.ticker};
      forall t | t in m
        ensures m[t] == Fold(ForTicker(ledger, t))
      {
        ForTickerPush(init, tx, t);
        if t == tx.ticker {
          FoldPush(ForTicker(init, t), tx);
        } else {
          assert ForTicker(init, t) + [] == ForTicker(init, t);
        }
      }
    }
  }

  /** One row of the summary table. */
  datatype Row = Row(ticker: string, quantity: real, avg: real, price: real, unrealized: real, realized: real)

  /** A ticker's row: unrealized P/L is market value less remaining cost
      at nonzero quantity, and a ticker without a quote is valued at 0. */
  function MakeRow(t: string, p: Position, prices: map<string, real>): (r: Row)
    ensures r.ticker == t && r.quantity == p.quantity && r.realized == p.realized
    ensures r.avg == AvgCost(p)
    ensures t !in prices ==> r.price == 0.0
    ensures t in prices ==> r.price == prices[t]
    ensures p.quantity != 0.0 ==> r.unrealized == p.quantity * r.price - p.totalCost
    ensures p.quantity != 0.0 && t !in prices ==> r.unrealized == -p.totalCost
    ensures p.quantity == 0.0 ==> r.avg == 0.0 && r.unrealized == 0.0
  {
    var avg := AvgCost(p);
    var price := PriceOf(prices, t);
    Row(t, p.quantity, avg, price, p.quantity * (price - avg), p.realized)
  }

  /** `buildSummary`: one row per distinct ticker, each built from that
      ticker's records alone, in ledger order. */
  function Summary(ledger: seq<Tx>, prices: map<string, real>): (rows: map<string, Row>)
    ensures |ledger| == 0 ==> rows == map[]
    ensures rows.Keys == Tickers(ledger)
    ensures forall t :: t in rows ==> rows[t] == MakeRow(t, Fold(ForTicker(ledger, t)), prices)
  {
    if |ledger| == 0 then map[]
    else
      var byTicker := Positions(ledger);
      PositionsPerTicker(ledger);
      map t | t in byTicker :: MakeRow(t, byTicker[t], prices)
  }

  /** A row depends only on its own ticker's records: two ledgers with the
      same records for `t`, in the same order, give `t` the same row. */
  lemma RowDependsOnlyOnTicker(a: seq<Tx>, b: seq<Tx>, t: string, prices: map<string, real>)
    requires t in Tickers(a)
    requires ForTicker(a, t) == ForTicker(b, t)
    ensures t in Summary(b, prices)
    ensures Summary(a, prices)[t] == Summary(b, prices)[t]
  {
  }

  /** Over-selling into a short position and buying back to zero leaves a
      residual cost pool that the row's unrealized figure does not show. */
  lemma ResidualCostAtZeroQuantity()
    ensures var p := Fold([Tx("T", 10.0, 100.0, None, Some("buy")),
                           Tx("T", 20.0, 100.0, None, Some("sell")),
                           Tx("T", 10.0, 50.0, None, Some("buy"))]);
            p == Position(0.0, -500.0, 0.0) &&
            MakeRow("T", p, map[]).unrealized == 0.0
  {
    var a := Tx("T", 10.0, 100.0, None, Some("buy"));
    var b := Tx("T", 20.0, 100.0, None, Some("sell"));
    var c := Tx("T", 10.0, 50.0, None, Some("buy"));
    assert [a, b, c][..2] == [a, b];
    assert [a, b][..1] == [a];
    assert [a][..0] == [];
    assert Fold([a]) == Position(10.0, 1000.0, 0.0);
    assert Fold([a, b]) == Position(-10.0, -1000.0, 0.0);
  }

  /** The residual pool is not only hidden: it carries into the next buy.
      Buying 10 at 50 once more ends holding 10 at a cost of 0, so the row
      reports an average cost of 0 and the whole market value as unrealized. */
  lemma ResidualCostCarriesIntoNextBuy()
    ensures var p := Fold([Tx("T", 10.0, 100.0, None, Some("buy")),
                           Tx("T", 20.0, 100.0, None, Some("sell")),
                           Tx("T", 10.0, 50.0, None, Some("buy")),
                           Tx("T", 10.0, 50.0, None, Some("buy"))]);
            p == Position(10.0, 0.0, 0.0) &&
            MakeRow("T", p, map["T" := 50.0]).avg == 0.0 &&
            MakeRow("T", p, map["T" := 50.0]).unrealized == 500.0
  {
    var a := Tx("T", 10.0, 100.0, None, Some("buy"));
    var b := Tx("T", 20.0, 100.0, None, Some("sell"));
    var c := Tx("T", 10.0, 50.0, None, Some("buy"));
    ResidualCostAtZeroQuantity();
    FoldPush([a, b, c], c);
    assert [a, b, c] + [c] == [a, b, c, c];
  }

  /** Buy 10 at 100, buy 10 at 200, sell 5 at 180 leaves 15
      held at cost 2250 with 150 realized. */
  lemma TwoBuysThenSell()
    ensures Fold([Tx("ACME", 10.0, 100.0, None, Some("buy")),
                  Tx("ACME", 10.0, 200.0, None, Some("buy")),
                  Tx("ACME", 5.0, 180.0, None, Some("sell"))]) == Position(15.0, 2250.0, 150.0)
  {
    var a := Tx("ACME", 10.0, 100.0, None, Some("buy"));
    var b := Tx("ACME", 10.0, 200.0, None, Some("buy"));
    var c := Tx("ACME", 5.0, 180.0, None, Some("sell"));
    assert [a, b, c][..2] == [a, b];
    assert [a, b][..1] == [a];
    assert [a][..0] == [];
    assert Fold([a]) == Position(10.0, 1000.0, 0.0);
    assert Fold([a, b]) == Position(20.0, 3000.0, 0.0);
    assert AvgCost(Fold([a, b])) == 150.0;
  }

  function TwoBuysThenSellLedger(): seq<Tx>
  {
    [Tx("ACME", 10.0, 100.0, None, Some("buy")),
     Tx("ACME", 10.0, 200.0, None, Some("buy")),
     Tx("ACME", 5.0, 180.0, None, Some("sell"))]
  }

  lemma TwoBuysThenSellGrouping()
    ensures Tickers(TwoBuysThenSellLedger()) == {"ACME"}
    ensures ForTicker(TwoBuysThenSellLedger(), "ACME") == TwoBuysThenSellLedger()
  {
    SingleTicker(TwoBuysThenSellLedger(), "ACME");
  }

  /** The same example as a summary: a single row, average 150, and at a
      quote of 160 an unrealized gain of 150. */
  lemma TwoBuysThenSellSummary()
    ensures var rows := Summary(TwoBuysThenSellLedger(), map["ACME" := 160.0]);
            rows.Keys == {"ACME"} && rows["ACME"] == Row("ACME", 15.0, 150.0, 160.0, 150.0, 150.0)
  {
    var prices := map["ACME" := 160.0];
    TwoBuysThenSellGrouping();
    assert MakeRow("ACME", Fold(TwoBuysThenSellLedger()), prices) == Row("ACME", 15.0, 150.0, 160.0, 150.0, 150.0) by {
      TwoBuysThenSell();
      assert AvgCost(Position(15.0, 2250.0, 150.0)) == 150.0;
    }
  }
}

=== FILE: engines.dfy ===
/**
  The two engines read the same kind of ledger but disagree on records
  without a type: the average-cost engine folds them as sells, the additive
  engine adds them like every other record. They agree on ledgers of buys.
 */
module Engines {
  import opened Ledger
  import opened AverageCost
  import opened Additive

  lemma {:induction false} ForTickerAllBuys(ledger: seq<Tx>, t: string)
    requires AllBuys(ledger)
    ensures AllBuys(ForTicker(ledger, t))
    decreases |ledger|
  {
    if |ledger| > 0 {
      ForTickerAllBuys(ledger[..|ledger| - 1], t);
    }
  }

  /** On a ledger of buys only, the summary row and the portfolio row of a
      ticker report the same quantity, and at nonzero quantity the same
      average; nothing is realized. */
  lemma BuysOnlyEnginesAgree(ledger: seq<Tx>, t: string, prices: map<string, real>)
    requires AllBuys(ledger)
    requires t in Tickers(ledger)
    ensures t in Summary(ledger, prices) && t in Groups(ledger)
    ensures Summary(ledger, prices)[t].quantity == GroupLine(t, Groups(ledger)[t], prices).qty
    ensures Summary(ledger, prices)[t].realized == 0.0
    ensures GroupLine(t, Groups(ledger)[t], prices).qty != 0.0 ==>
      GroupLine(t, Groups(ledger)[t], prices).avg == Some(Summary(ledger, prices)[t].avg)
  {
    GroupsArePartition(ledger);
    var g := ForTicker(ledger, t);
    ForTickerAllBuys(ledger, t);
    BuysOnlyFold(g);
  }

  /** A record appended by the browser form carries no type: the
      average-cost engine sells it, reducing the ticker's quantity, while the
      additive engine adds it. The two pages keep separate ledgers (the
      browser's local storage and the server's file), so such a record meets
      the average-cost fold only when a ledger is carried from one page to
      the other, or when a request to the server omits the type. */
  lemma UntypedRecordSplitsEngines(ledger: seq<Tx>, ticker: string, quantity: real, price: real, date: string)
    ensures var r := AddTransaction(ledger, ticker, quantity, price, date);
            Fold(ForTicker(r, ticker)).quantity == Fold(ForTicker(ledger, ticker)).quantity - quantity
    ensures var r := AddTransaction(ledger, ticker, quantity, price, date);
            Total(ForTicker(r, ticker), Qty) == Total(ForTicker(ledger, ticker), Qty) + quantity
  {
    var tx := Tx(ticker, quantity, price, Some(date), None);
    var r := AddTransaction(ledger, ticker, quantity, price, date);
    assert r == ledger + [tx];
    ForTickerPush(ledger, tx, ticker);
    FoldPush(ForTicker(ledger, ticker), tx);
    TotalPush(ForTicker(ledger, ticker), tx, Qty);
  }
}

=== FILE: ledger.dfy ===
/**
  The transaction ledger shared by both accounting engines: the record shape,
  the per-ticker sub-sequence both engines group by, sums over records, and
  the two state transitions of the browser ledger (append and import).
 */
module Ledger {

  datatype Option<+T> = None | Some(value: T)

  /** One ledger record. `kind` is the optional `type` field: the form behind
      the server API always sends it, the browser form never does. The record
      `id` is only used for display keys and is not modelled. */
  datatype Tx = Tx(ticker: string, quantity: real, price: real, date: Option<string>, kind: Option<string>)

  /** The set of distinct tickers occurring in the ledger. */
  function Tickers(ledger: seq<Tx>): set<string>
    decreases |ledger|
  {
    if |ledger| == 0 then {} else Tickers(ledger[..|ledger| - 1]) + {ledger[|ledger| - 1].ticker}
  }

  lemma TickersPush(ledger: seq<Tx>, x: Tx)
    ensures Tickers(ledger + [x]) == Tickers(ledger) + {x.ticker}
  {
    assert (ledger + [x])[..|ledger|] == ledger;
  }

  /** Exactly the tickers of the records are in `Tickers`. */
  lemma {:induction false} TickersExact(ledger: seq<Tx>, t: string)
    ensures t in Tickers(ledger) <==> exists i :: 0 <= i < |ledger| && ledger[i].ticker == t
    decreases |ledger|
  {
    if |ledger| > 0 {
      var init := ledger[..|ledger| - 1];
      TickersExact(init, t);
      if t in Tickers(init) {
        var i :| 0 <= i < |init| && init[i].ticker == t;
        assert ledger[i].ticker == t;
      }
      if exists i :: 0 <= i < |ledger| && ledger[i].ticker == t {
        var i :| 0 <= i < |ledger| && ledger[i].ticker == t;
        if i < |init| {
          assert init[i].ticker == t;
        }
      }
    }
  }

  lemma AllTickersIn(ledger: seq<Tx>)
    ensures forall i :: 0 <= i < |ledger| ==> ledger[i].ticker in Tickers(ledger)
  {
    forall i | 0 <= i < |ledger|
      ensures ledger[i].ticker in Tickers(ledger)
    {
      TickersExact(ledger, ledger[i].ticker);
    }
  }

  /** The records of ticker `t`, in ledger order. */
  function ForTicker(ledger: seq<Tx>, t: string): (r: seq<Tx>)
    ensures |r| <= |ledger|
    ensures forall i :: 0 <= i < |r| ==> r[i].ticker == t
    ensures |r| > 0 <==> t in Tickers(ledger)
    decreases |ledger|
  {
    if |ledger| == 0 then []
    else
      var last := ledger[|ledger| - 1];
      ForTicker(ledger[..|ledger| - 1], t) + (if last.ticker == t then [last] else [])
  }

  /** Price of `t` in a quote map; a symbol the quote service did not return
      counts as price 0, as `prices[t] || 0` does. */
  function PriceOf(prices: map<string, real>, t: string): real
  {
    if t in prices then prices[t] else 0.0
  }

  predicate Distinct(keys: seq<string>)
  {
    forall i, j :: 0 <= i < j < |keys| ==> keys[i] != keys[j]
  }

  /** `keys` enumerates each ticker of the ledger exactly once, in some order
      (the order `Object.keys` happens to produce). */
  ghost predicate IsKeyOrder(keys: seq<string>, ledger: seq<Tx>)
  {
    Distinct(keys) && (forall k :: k in keys <==> k in Tickers(ledger))
  }

  /** Tickers in order of first appearance: one valid key order. */
  function DiscoveryOrder(ledger: seq<Tx>): (keys: seq<string>)
    ensures IsKeyOrder(keys, ledger)
    decreases |ledger|
  {
    if |ledger| == 0 then []
    else
      var init := ledger[..|ledger| - 1];
      var last := ledger[|ledger| - 1];
      var prev := DiscoveryOrder(init);
      if last.ticker in prev then prev else prev + [last.ticker]
  }

  // ---------------------------------------------------------------------
  // Sums over records

  /** Sum of the weight `w` over the records, accumulated in ledger order. */
  function Total(txs: seq<Tx>, w: Tx -> real): real
    decreases |txs|
  {
    if |txs| == 0 then 0.0 else Total(txs[..|txs| - 1], w) + w(txs[|txs| - 1])
  }

  function Qty(tx: Tx): real { tx.quantity }

  function Cost(tx: Tx): real { tx.quantity * tx.price }

  function One(tx: Tx): real { 1.0 }

  lemma TotalPush(txs: seq<Tx>, x: Tx, w: Tx -> real)
    ensures Total(txs + [x], w) == Total(txs, w) + w(x)
  {
    assert (txs + [x])[..|txs|] == txs;
  }

  lemma {:induction false} TotalConcat(a: seq<Tx>, b: seq<Tx>, w: Tx -> real)
    ensures Total(a + b, w) == Total(a, w) + Total(b, w)
    decreases |b|
  {
    if |b| == 0 {
      assert a + b == a;
    } else {
      var init := b[..|b| - 1];
      var last := b[|b| - 1];
      assert b == init + [last];
      assert a + b == (a + init) + [last];
      TotalPush(a + init, last, w);
      TotalConcat(a, init, w);
      TotalPush(init, last, w);
    }
  }

  /** A sum over records does not depend on their order. */
  lemma {:induction false} TotalPermutation(a: seq<Tx>, b: seq<Tx>, w: Tx -> real)
    requires multiset(a) == multiset(b)
    ensures Total(a, w) == Total(b, w)
    decreases |a|
  {
    if |a| == 0 {
      assert |b| == |multiset(b)| == 0;
    } else {
      var init := a[..|a| - 1];
      var x := a[|a| - 1];
      assert a == init + [x];
      assert x in multiset(b);
      var i :| 0 <= i < |b| && b[i] == x;
      var rest := b[..i] + b[i + 1..];
      assert b == b[..i] + [x] + b[i + 1..];
      assert multiset(rest) == multiset(b) - multiset{x};
      assert multiset(init) == multiset(a) - multiset{x};
      TotalPermutation(init, rest, w);
      TotalConcat(b[..i] + [x], b[i + 1..], w);
      TotalConcat(b[..i], [x], w);
      TotalConcat(b[..i], b[i + 1..], w);
      TotalPush(init, x, w);
      assert Total([x], w) == w(x) by {
        assert [x][..0] == [];
      }
    }
  }

  /** Two record sequences that agree on ticker, quantity and price at every
      position (and may differ in `type` or date). */
  predicate SameTrades(a: seq<Tx>, b: seq<Tx>)
  {
    |a| == |b| &&
    forall i :: 0 <= i < |a| ==>
      a[i].ticker == b[i].ticker && a[i].quantity == b[i].quantity && a[i].price == b[i].price
  }

  /** Quantity and invested sums ignore every field except quantity and price. */
  lemma {:induction false} TotalSameTrades(a: seq<Tx>, b: seq<Tx>)
    requires SameTrades(a, b)
    ensures Total(a, Qty) == Total(b, Qty)
    ensures Total(a, Cost) == Total(b, Cost)
    decreases |a|
  {
    if |a| > 0 {
      TotalSameTrades(a[..|a| - 1], b[..|b| - 1]);
    }
  }

  /** Sum of strictly positive weights over a non-empty sequence is positive. */
  lemma {:induction false} TotalPositive(txs: seq<Tx>)
    requires |txs| > 0
    requires forall i :: 0 <= i < |txs| ==> txs[i].quantity > 0.0
    ensures Total(txs, Qty) > 0.0
    decreases |txs|
  {
    if |txs| > 1 {
      TotalPositive(txs[..|txs| - 1]);
    } else {
      assert txs[..0] == [];
    }
  }

  lemma {:induction false} TotalOneIsLength(txs: seq<Tx>)
    ensures Total(txs, One) == |txs| as real
    decreases |txs|
  {
    if |txs| > 0 {
      TotalOneIsLength(txs[..|txs| - 1]);
    }
  }

  // ---------------------------------------------------------------------
  // Sums over tickers

  /** Sum, over an enumeration of tickers, of each ticker's own total. */
  function SumByTicker(ledger: seq<Tx>, keys: seq<string>, w: Tx -> real): real
    decreases |keys|
  {
    if |keys| == 0 then 0.0
    else SumByTicker(ledger, keys[..|keys| - 1], w) + Total(ForTicker(ledger, keys[|keys| - 1]), w)
  }

  /** Extending the enumeration by one key adds that key's total. */
  lemma SumByTickerNext(ledger: seq<Tx>, keys: seq<string>, i: nat, w: Tx -> real)
    requires i < |keys|
    ensures SumByTicker(ledger, keys[..i + 1], w)
         == SumByTicker(ledger, keys[..i], w) + Total(ForTicker(ledger, keys[i]), w)
  {
    assert keys[..i + 1][..i] == keys[..i];
  }

  lemma ForTickerPush(ledger: seq<Tx>, x: Tx, t: string)
    ensures ForTicker(ledger + [x], t) == ForTicker(ledger, t) + (if x.ticker == t then [x] else [])
  {
    assert (ledger + [x])[..|ledger|] == ledger;
  }

  lemma {:induction false} SumByTickerEmpty(keys: seq<string>, w: Tx -> real)
    ensures SumByTicker([], keys, w) == 0.0
    decreases |keys|
  {
    if |keys| > 0 {
      SumByTickerEmpty(keys[..|keys| - 1], w);
    }
  }

  lemma {:induction false} SumByTickerPush(ledger: seq<Tx>, x: Tx, keys: seq<string>, w: Tx -> real)
    requires Distinct(keys)
    ensures SumByTicker(ledger + [x], keys, w)
         == SumByTicker(ledger, keys, w) + (if x.ticker in keys then w(x) else 0.0)
    decreases |keys|
  {
    if |keys| > 0 {
      var ks := keys[..|keys| - 1];
      var k := keys[|keys| - 1];
      assert keys == ks + [k];
      assert x.ticker in keys <==> x.ticker in ks || x.ticker == k;
      assert x.ticker == k ==> x.ticker !in ks;
      SumByTickerPush(ledger, x, ks, w);
      ForTickerPush(ledger, x, k);
      if x.ticker == k {
        TotalPush(ForTicker(ledger, k), x, w);
      } else {
        assert ForTicker(ledger, k) + [] == ForTicker(ledger, k);
      }
    }
  }

  /** Partition and sum decomposition: summing each ticker's total over an
      enumeration that covers every ticker once gives the total of the
      whole ledger. */
  lemma {:induction false} TotalByTicker(ledger: seq<Tx>, keys: seq<string>, w: Tx -> real)
    requires Distinct(keys)
    requires forall i :: 0 <= i < |ledger| ==> ledger[i].ticker in keys
    ensures SumByTicker(ledger, keys, w) == Total(ledger, w)
    decreases |ledger|
  {
    if |ledger| == 0 {
      SumByTickerEmpty(keys, w);
    } else {
      var init := ledger[..|ledger| - 1];
      var x := ledger[|ledger| - 1];
      assert ledger == init + [x];
      TotalByTicker(init, keys, w);
      SumByTickerPush(init, x, keys, w);
    }
  }

  /** Every record lands in exactly one group: the group sizes add up to the
      length of the ledger. */
  lemma GroupSizesSumToLength(ledger: seq<Tx>, keys: seq<string>)
    requires IsKeyOrder(keys, ledger)
    ensures SumByTicker(ledger, keys, One) == |ledger| as real
  {
    AllTickersIn(ledger);
    TotalByTicker(ledger, keys, One);
    TotalOneIsLength(ledger);
  }

  /** Grouping commutes with concatenation, so each group keeps the relative
      ledger order of its records. */
  lemma {:induction false} ForTickerConcat(a: seq<Tx>, b: seq<Tx>, t: string)
    ensures ForTicker(a + b, t) == ForTicker(a, t) + ForTicker(b, t)
    decreases |b|
  {
    if |b| == 0 {
      assert a + b == a;
    } else {
      var init := b[..|b| - 1];
      var last := b[|b| - 1];
      assert b == init + [last];
      var tail := if last.ticker == t then [last] else [];
      assert a + b == (a + init) + [last];
      calc {
        ForTicker(a + b, t);
        { ForTickerPush(a + init, last, t); }
        ForTicker(a + init, t) + tail;
        { ForTickerConcat(a, init, t); }
        (ForTicker(a, t) + ForTicker(init, t)) + tail;
        ForTicker(a, t) + (ForTicker(init, t) + tail);
        { ForTickerPush(init, last, t); }
        ForTicker(a, t) + ForTicker(b, t);
      }
    }
  }

  /** Each record appears in the group of its own ticker as often as it
      appears in the ledger, and in no other group. */
  lemma {:induction false} ForTickerCounts(ledger: seq<Tx>, t: string, tx: Tx)
    ensures multiset(ForTicker(ledger, t))[tx] == if tx.ticker == t then multiset(ledger)[tx] else 0
    decreases |ledger|
  {
    if |ledger| > 0 {
      var init := ledger[..|ledger| - 1];
      var last := ledger[|ledger| - 1];
      assert ledger == init + [last];
      ForTickerCounts(init, t, tx);
    }
  }

  // ---------------------------------------------------------------------
  // Ledger transitions of the browser ledger

  /** `addTransaction`: the browser form records no `type`. */
  function AddTransaction(ledger: seq<Tx>, ticker: string, quantity: real, price: real, date: string): (r: seq<Tx>)
    ensures |r| == |ledger| + 1
    ensures r[..|ledger|] == ledger
    ensures r[|ledger|] == Tx(ticker, quantity, price, Some(date), None)
    ensures Tickers(r) == Tickers(ledger) + {ticker}
  {
    var r := ledger + [Tx(ticker, quantity, price, Some(date), None)];
    assert r[..|ledger|] == ledger;
    r
  }

  /** Result of parsing an imported file, before the array check. */
  datatype Parsed = ParseFailure | NotAnArray | AnArray(items: seq<Tx>)

  /** `importData`: only a parsed array replaces the ledger. */
  function ImportData(ledger: seq<Tx>, parsed: Parsed): (r: seq<Tx>)
    ensures parsed.AnArray? ==> r == parsed.items
    ensures !parsed.AnArray? ==> r == ledger
  {
    match parsed
    case AnArray(items) => items
    case _ => ledger
  }

  /** Importing the same file twice leaves the ledger as importing it once. */
  lemma ImportIdempotent(ledger: seq<Tx>, parsed: Parsed)
    ensures ImportData(ImportData(ledger, parsed), parsed) == ImportData(ledger, parsed)
  {
  }

  /** A ledger that names a single ticker is its own group. */
  lemma {:induction false} SingleTicker(ledger: seq<Tx>, t: string)
    requires |ledger| > 0
    requires forall i :: 0 <= i < |ledger| ==> ledger[i].ticker == t
    ensures Tickers(ledger) == {t}
    ensures ForTicker(ledger, t) == ledger
    decreases |ledger|
  {
    var init := ledger[..|ledger| - 1];
    if |init| > 0 {
      SingleTicker(init, t);
    }
    assert init + [ledger[|ledger| - 1]] == ledger;
  }
}
